=== FILE: README.md ===
# sish-client, modelled in Dafny

sish-client opens a reverse SSH tunnel through a sish relay. The `SishClient`
constructor does three things:

- it checks its configuration;
- it builds the `ssh -R [subdomain:]remote_port:local_host:local_port` command line and starts `ssh`;
- it reads the process's standard output, chunk by chunk.

Each chunk is split on CRLF, and terminal styling is removed from each segment. A segment that starts
with `HTTP: ` or `TCP: ` announces the tunnel address. It sets the address and the ready flag, and
the client emits `ready`. Once the client is ready, every other non-empty segment is emitted as
`log`. `disconnect` kills the process and forgets the address.

The model has these modules:

- `Wrappers` (wrappers.dfy): `Option` for `undefined`, and `Result` for a thrown error.
- `Strings` (strings.dfy): the JavaScript string operations the client uses.
  - `startsWith`, `indexOf`, `replace` with a string pattern, and `split`/`join`.
  - How `${n}` renders an integer, with its inverse.
- `Ansi` (ansi.dfy): the styling regular expression. There are two readings of it.
  - A declarative language, `IsAnsiSequenceAt`, over positions of a string.
  - A backtracking matcher, `MatchAt`, which tries the alternatives in the engine's priority order.
  - The two are proved to agree on whether a match exists. `StripAnsi` is the global replacement with `""`.
- `Config` (config.dfy): the constructor's checks, its defaults, the forwarding spec and the argument vector.
- `Session` (session.dfy): the state the client keeps and the handling of output, as functions on values.
  - The state is the tunnel address, the ready flag and the events emitted so far.
  - This module also holds the lemmas about that handling.
- `Client` (client.dfy): the class `SishClient` itself.
  - Its fields are the ones the TypeScript object updates.
  - `Create` models the constructor, which can throw.
  - `ProcessStdout` is the nested loop over chunks and segments. It is proved equal to `Session.HandleChunks`.
  - `Disconnect` clears the address field.

The events the `EventEmitter` would deliver are kept in the `events` sequence, in emission order.

Three behaviours of the code are easy to miss:

- A `log` event carries the raw segment as it arrived, with any styling still in it. The cleaned text
  is only used to classify the segment (index.ts:122). See `Session.LogKeepsStyling`.
- `ready` is emitted once per announcing segment, not at most once per session
  (`Session.OneReadyPerAnnouncement`).
- `disconnect` clears the address but leaves the ready flag set (index.ts:90-93). After a
  disconnect, output is therefore still logged (`Session.OutputAfterDisconnect`).

A line split across two chunks is not put back together (`Session.ChunkBoundaryEndsSegment`),
because each chunk is split on its own (index.ts:104).

## Model

| member | source | states |
|---|---|---|
| Config.Configure | index.ts:50-79 | The constructor fails exactly when `sish_host` is missing or empty, or when a subdomain is given with a remote port other than 80. A missing host is the error reported first. On success, the argument vector is `ssh`, `-o StrictHostKeyChecking=no`, `-T`, `-R ` followed by the forwarding spec, and the host. |
| Config.ForwardingSpecFields | index.ts:67-71 | When neither the host nor the subdomain contains `:`, splitting the forwarding spec on `:` gives back the optional subdomain, the remote port, the local host and the local port. Port numbers are recovered exactly from their decimal rendering. |
| Config.Truthy | index.ts:59-69 | JavaScript truthiness of an optional string property, as the tests of `sish_host` and `subdomain` use it: present and not empty. `Configure`'s ensures state both failure conditions through it. |
| Config.ForwardingSpec | index.ts:67-71 | Defines the `-R` argument: remote port, local host and local port joined with `:`, prefixed with `<subdomain>:` when the subdomain is truthy. `ForwardingSpecFields` characterises it: splitting it on `:` gives back each field, and both ports read back exactly. |
| Config.RemotePort | index.ts:53 | The destructuring default of `remote_port`. The default 80 applies only when the property is absent; any given value, including a falsy 0, is kept. `SubdomainWithDefaultPort` and `FalsyPropertiesKept` state both cases. |
| Config.LocalHost | index.ts:51 | The destructuring default of `local_host`. The default `localhost` applies only when the property is absent; a given empty string is kept. `FalsyPropertiesKept` states this. |
| Config.FalsyPropertiesKept | index.ts:51-71 | With `remote_port` 0, `local_host` empty and no truthy subdomain, no default applies. The forwarding spec is `0::` followed by the local port. |
| Config.ConfigError.Message | index.ts:59-65 | The two errors the constructor throws carry the messages `sish_host not provided` and `TCP alias not supported`. |
| Config.SubdomainWithDefaultPort | index.ts:50-71 | A subdomain with no remote port given is accepted, because the remote port defaults to 80. The spec then starts with `<subdomain>:80:`. |
| Client.SishClient.Create | index.ts:50-79 | The imperative constructor. It fails exactly when `Configure` does, with the same error. Otherwise it returns a fresh client whose argument vector is the one `Configure` gives, in the initial state: no address, not ready, nothing emitted (index.ts:36-38). |
| Client.SishClient.ProcessStdout | index.ts:103-125 | After the loops over chunks and segments, the client's state is `HandleChunks` of its state before, applied to the chunks. |
| Client.SishClient.Disconnect | index.ts:90-93 | The address becomes absent. The ready flag and the emitted events stay as they were. |
| Session.Disconnected | index.ts:90-93 | The state after a disconnect has no address, the same ready flag and the same events. |
| Session.OutputAfterDisconnect | index.ts:90-93 | After a disconnect, output without an announcement leaves the address absent and the ready flag unchanged. A session that was ready still logs its non-empty segments. |
| Session.Classify | index.ts:109-118 | A cleaned segment is an HTTP announcement exactly when it starts with `HTTP: `. Its address is the rest of the segment, with the first `http` turned into `https`. It is a TCP announcement exactly when it does not start with `HTTP: ` but starts with `TCP: `. Its address is the rest of the segment, unchanged. |
| Session.Step | index.ts:105-123 | How one segment changes the state. The session is ready afterwards exactly when it was before or the segment announces the tunnel. An empty segment changes nothing. An announcing segment sets the address to the announced one, sets ready, and appends exactly its `ready` event. Before the session is ready, a non-announcing segment changes nothing. Once it is ready, such a segment appends exactly `log` of the raw segment and changes nothing else. |
| Session.Steps | index.ts:105-123 | Defines the inner loop: the segments of a chunk handled left to right by `Step`. `StepsAppend`, `ReadyIffAnnounced`, `EventsOnlyAppended`, `QuietUntilAnnounced`, `AddressKeptWithoutAnnouncement`, `AddressOfLastAnnouncement`, `OneReadyPerAnnouncement` and `LogsAreRawSegments` state what it does. |
| Session.HandleChunks | index.ts:103-125 | Defines the outer loop: each chunk split on CRLF on its own and its segments handled by `Steps`. `ChunksAreSplitIndependently` reduces it to `Steps` over all segments. `ReadyNeverReverts` and `ChunkBoundaryEndsSegment` state it directly, and `ProcessStdout` is proved equal to it. |
| Session.ChunksAreSplitIndependently | index.ts:103-105 | Handling a sequence of chunks is the same as handling, in order, the concatenation of each chunk's own segments. |
| Session.StepsAppend | index.ts:105 | Handling two runs of segments one after the other is the same as handling their concatenation. |
| Session.ReadyIffAnnounced | index.ts:109-118 | After a run of segments, the session is ready if and only if it was ready before, or at least one of the segments announced the tunnel. |
| Session.ReadyNeverReverts | index.ts:109-123 | Once the session is ready, it stays ready whatever output follows. |
| Session.EventsOnlyAppended | index.ts:109-123 | Handling output never removes or changes an event already emitted; it can only add events. |
| Session.QuietUntilAnnounced | index.ts:119-121 | Before readiness, output that announces nothing changes no state and emits nothing. |
| Session.AddressKeptWithoutAnnouncement | index.ts:109-123 | Output without an announcement leaves both the address and the ready flag unchanged. |
| Session.AddressOfLastAnnouncement | index.ts:109-118 | The address after a run of segments is the one announced by the last announcing segment. |
| Session.OneReadyPerAnnouncement | index.ts:109-118 | Exactly one `ready` event is emitted for each announcing segment. |
| Session.LogsAreRawSegments | index.ts:105-123 | Every `log` event emitted carries one of the segments itself. That segment is non-empty and announces nothing. |
| Session.SplitTerminatedLine | index.ts:104 | A line without CRLF, followed by CRLF, splits into the line and an empty segment. |
| Session.OneLineChunk | index.ts:104-106 | A chunk that holds one CRLF-terminated line is handled as that line alone. The empty tail is skipped. |
| Session.HttpReadyLine | index.ts:109-114 | A chunk `HTTP: http://<host>` followed by CRLF sets the address to `https://<host>`, sets ready, and emits `ready("HTTPS", "https://<host>")`. |
| Session.HttpsRewrite | index.ts:110-112 | Replacing the first `http` in `http://<host>` gives `https://<host>`. |
| Session.TcpReadyLine | index.ts:115-118 | A chunk `TCP: <address>` followed by CRLF sets the address to `<address>`, sets ready, and emits `ready("TCP", "<address>")`. |
| Session.LogKeepsStyling | index.ts:107-122 | Once the session is ready, a line of plain text wrapped in colour resets is logged with the resets still in it. |
| Session.ChunkBoundaryEndsSegment | index.ts:103-105 | Two chunks without CRLF are handled as two separate segments. They are not joined. |
| Ansi.MatchAt | index.ts:100-101 | When the matcher finds a match at `i`, it ends at or after `i + 2` and within the string. |
| Ansi.MatchAtSound | index.ts:100-101 | Every match the backtracking matcher finds is a string of the pattern's language. |
| Ansi.MatchAtComplete | index.ts:100-101 | Whenever a string of the pattern's language starts at `i`, the matcher finds a match at `i`. |
| Ansi.StripFrom | index.ts:107 | The left-to-right scan of the global `replace` from position `i`: a match is dropped and the scan resumes at its end; otherwise one character is kept. The result is never longer than what remains, and what remains is returned unchanged when it holds no ESC and no CSI character. |
| Ansi.StripAnsi | index.ts:107 | Removing matches never lengthens a segment. A segment with no ESC and no CSI character is returned unchanged. |
| Ansi.StripColourReset | index.ts:100-107 | Plain text wrapped in `ESC [ 0 m` on both sides is cleaned to the text itself. |
| Ansi.ColourResetMatches | index.ts:100-101 | The matcher takes `ESC [ 0 m` as one four-character sequence. |
| Strings.ReplaceFirst | index.ts:110-116 | `replace` with a string pattern. With no occurrence, the string is unchanged. When the string starts with the pattern, that prefix is replaced. |
| Strings.ReplaceFirstOccurrence | index.ts:110-112 | Only the first occurrence is replaced. Everything before and after it is kept. |
| Strings.IndexOf | index.ts:110-116 | The first occurrence of a pattern, or none exactly when the pattern occurs nowhere. |
| Strings.Split | index.ts:104 | `split` with a string separator. It returns at least one piece, no piece contains the separator, and joining the pieces with it gives back the input. |
| Strings.IntToString | index.ts:67 | How `${n}` renders an integer below 10^21 in magnitude. It starts with `-` exactly when the integer is negative, and at least one character follows that sign. Every other character is a decimal digit. There is no leading zero: the first digit is `0` only when the whole rendering is `0`. `ParseIntOfIntToString` shows the rendering loses nothing. |
| Strings.SplitOfJoin | index.ts:67-71 | Splitting a join on a one-character separator that no piece contains gives back the pieces. It is the inverse of `Split` that reads the `:`-separated forwarding spec back in `ForwardingSpecFields`. |
| Strings.ParseIntOfIntToString | index.ts:67 | The decimal rendering of an integer in a template literal loses nothing: reading it back gives the integer. |

## Left out

- Starting the process with `Bun.spawn`, `kill`, the `onExit` callback and the `close` event are external I/O. The model has no process; `Disconnect` only clears the address.
- Async iteration is left out, and so is the guard at index.ts:96 that returns when standard output is not a `ReadableStream`. `ProcessStdout` receives the chunks as a sequence.
- `TextDecoder` is left out. Chunks are already-decoded strings of characters, and a UTF-8 sequence split across two chunks is not modelled.
- `EventEmitter` subscription and delivery are left out. Emitted events are recorded in order in `events`.
- Listener re-entrancy is left out. `emit` calls its listeners synchronously, so a `ready` listener that calls `disconnect()` would clear the address in the middle of a chunk (after index.ts:114, before the next segment). `ProcessStdout` runs no listeners and cannot express this interleaving.
- The `version` getter (index.ts:46-48) reads package metadata and is left out. The `tunnelURL` getter (index.ts:42-44) is the `tunnelURL` field.
- Ports are integers. JavaScript numbers that are not integers, and their rendering with a fraction or exponent in `${}`, are not modelled.
- Strings.IntToString: always renders in plain decimal. JavaScript renders an integer of magnitude 10^21 or more in exponent form (`${1e21}` is `1e+21`), and the model does not capture this, so for such ports the forwarding spec differs from the one index.ts:67 builds.
- Strings are sequences of Dafny characters, not UTF-16 code units. The regular expression is modelled only for the pattern the client uses, not in general.
- Strings.ReplaceFirst: a replacement string is taken literally, without JavaScript's `$` patterns. The two replacements the client uses, `""` and `"https"`, contain none.
- The `local_port` property is required and taken as given. Non-string values in the optional string properties, which TypeScript rules out, are not modelled.

=== FILE: ansi.dfy ===
/**
 * Removal of terminal styling sequences from a line of tunnel output.
 *
 * The client removes every match of the global regular expression
 *
 *     [\u001b\u009b][[()#;?]*(?:[0-9]{1,4}(?:;[0-9]{0,4})*)?[0-9A-ORZcf-nqry=><]
 *
 * This module gives two readings of that pattern, both over positions of a
 * string `s`. `IsAnsiSequenceAt(s, i, e)` says that `s[i..e]` is one of
 * the strings the pattern describes. `MatchAt(s, i)` is what a backtracking
 * engine does at one position: it tries the alternatives in priority order
 * (greedy quantifiers try more repetitions first) and stops at the first
 * one that reaches the final character. The two are proved to agree on
 * whether a match exists (`MatchAtSound`, `MatchAtComplete`); the end
 * position the engine picks is the one `StripAnsi` uses.
 */
module Ansi {
  import opened Wrappers
  import opened Strings

  /** ESC (U+001B) or the one-character CSI (U+009B). */
  predicate IsIntroducer(c: char) {
    c == '\U{1B}' || c == '\U{9B}'
  }

  /** The class `[[()#;?]`. */
  predicate IsParamChar(c: char) {
    c == '[' || c == '(' || c == ')' || c == '#' || c == ';' || c == '?'
  }

  /** The class `[0-9A-ORZcf-nqry=><]`. */
  predicate IsFinalChar(c: char) {
    IsDigit(c) || ('A' <= c <= 'O') || c == 'R' || c == 'Z' || c == 'c'
    || ('f' <= c <= 'n') || c == 'q' || c == 'r' || c == 'y'
    || c == '=' || c == '>' || c == '<'
  }

  /** The number of consecutive decimal digits in `s` from index `q`. */
  function DigitsFrom(s: string, q: nat): (r: nat)
    requires q <= |s|
    ensures q + r <= |s|
    decreases |s| - q
  {
    if q < |s| && IsDigit(s[q]) then 1 + DigitsFrom(s, q + 1) else 0
  }

  /** The number of consecutive characters of the class `[[()#;?]` in `s` from index `j`. */
  function ParamCharsFrom(s: string, j: nat): (r: nat)
    requires j <= |s|
    ensures j + r <= |s|
    decreases |s| - j
  {
    if j < |s| && IsParamChar(s[j]) then 1 + ParamCharsFrom(s, j + 1) else 0
  }

  function Min(a: nat, b: nat): nat {
    if a <= b then a else b
  }

  /** At most four: the bound of `{1,4}` and `{0,4}`. */
  function Min4(n: nat): nat {
    Min(n, 4)
  }

  // ---------------------------------------------------------------------
  // The language of the pattern, over the positions `s[p..f]`
  // ---------------------------------------------------------------------

  /** The run of digits from `q`, cut at `f`. */
  function DigitsIn(s: string, q: nat, f: nat): nat
    requires q <= f <= |s|
  {
    Min(DigitsFrom(s, q), f - q)
  }

  /**
   * `(?:;[0-9]{0,4})*`: groups of a `;` and at most four digits. A group's
   * digits run up to the next `;`, so they are the whole run after it.
   */
  predicate IsGroupsIn(s: string, p: nat, f: nat)
    requires p <= f <= |s|
    decreases f - p
  {
    p == f ||
    (s[p] == ';' && DigitsIn(s, p + 1, f) <= 4 && IsGroupsIn(s, p + 1 + DigitsIn(s, p + 1, f), f))
  }

  /** `[0-9]{1,4}(?:;[0-9]{0,4})*`. */
  predicate IsNumbersIn(s: string, k: nat, f: nat)
    requires k <= f <= |s|
  {
    1 <= DigitsIn(s, k, f) <= 4 && IsGroupsIn(s, k + DigitsIn(s, k, f), f)
  }

  /** `[[()#;?]*(?:[0-9]{1,4}(?:;[0-9]{0,4})*)?`. */
  predicate IsParametersIn(s: string, j: nat, f: nat)
    requires j <= f <= |s|
    decreases f - j
  {
    j == f || IsNumbersIn(s, j, f) || (IsParamChar(s[j]) && IsParametersIn(s, j + 1, f))
  }

  /** `s[i..e]` as a whole matches the pattern. */
  predicate IsAnsiSequenceAt(s: string, i: nat, e: nat) {
    i + 2 <= e <= |s| && IsIntroducer(s[i]) && IsFinalChar(s[e - 1]) && IsParametersIn(s, i + 1, e - 1)
  }

  // ---------------------------------------------------------------------
  // The backtracking matcher. Every function returns the end (exclusive)
  // of the whole match, or None when no alternative reaches the end of
  // the pattern.
  // ---------------------------------------------------------------------

  /** `[0-9A-ORZcf-nqry=><]` at `p`. */
  function FinalAt(s: string, p: nat): (r: Option<nat>)
    requires p <= |s|
    ensures r.Some? ==> r.value == p + 1 <= |s| && IsFinalChar(s[p])
  {
    if p < |s| && IsFinalChar(s[p]) then Some(p + 1) else None
  }

  /** `(?:;[0-9]{0,4})*` and then the final character, from `p`: one more group first, else stop. */
  function GroupsAt(s: string, p: nat): (r: Option<nat>)
    requires p <= |s|
    ensures r.Some? ==> p < r.value <= |s|
    decreases |s| - p, 0
  {
    var more := if p < |s| && s[p] == ';' then GroupDigitsAt(s, p + 1, Min4(DigitsFrom(s, p + 1))) else None;
    if more.Some? then more else FinalAt(s, p)
  }

  /** After a `;` ending at `q`: `[0-9]{0,4}` tried with `m`, `m - 1`, ..., 0 digits. */
  function GroupDigitsAt(s: string, q: nat, m: nat): (r: Option<nat>)
    requires q <= |s| && m <= DigitsFrom(s, q)
    ensures r.Some? ==> q < r.value <= |s|
    decreases |s| - q, m + 1
  {
    var r := GroupsAt(s, q + m);
    if r.Some? then r
    else if m == 0 then None
    else GroupDigitsAt(s, q, m - 1)
  }

  /** `[0-9]{1,4}` at `k` tried with `m`, `m - 1`, ..., 1 digits, each followed by the groups. */
  function NumbersAt(s: string, k: nat, m: nat): (r: Option<nat>)
    requires k <= |s| && m <= DigitsFrom(s, k)
    ensures r.Some? ==> k < r.value <= |s|
    decreases m
  {
    if m == 0 then None
    else
      var r := GroupsAt(s, k + m);
      if r.Some? then r else NumbersAt(s, k, m - 1)
  }

  /** The optional numeric part at `k` (tried first) and then the final character. */
  function ParamsAt(s: string, k: nat): (r: Option<nat>)
    requires k <= |s|
    ensures r.Some? ==> k < r.value <= |s|
  {
    var r := NumbersAt(s, k, Min4(DigitsFrom(s, k)));
    if r.Some? then r else FinalAt(s, k)
  }

  /** `[[()#;?]*` from `j` tried with `k`, `k - 1`, ..., 0 characters. */
  function PrefixAt(s: string, j: nat, k: nat): (r: Option<nat>)
    requires j + k <= |s|
    ensures r.Some? ==> j < r.value <= |s|
    decreases k
  {
    var r := ParamsAt(s, j + k);
    if r.Some? then r
    else if k == 0 then None
    else PrefixAt(s, j, k - 1)
  }

  /** The end of the match the regular expression engine finds at index `i`. */
  function MatchAt(s: string, i: nat): (r: Option<nat>)
    requires i <= |s|
    ensures r.Some? ==> i + 2 <= r.value <= |s|
  {
    if i < |s| && IsIntroducer(s[i]) then PrefixAt(s, i + 1, ParamCharsFrom(s, i + 1)) else None
  }

  // ---------------------------------------------------------------------
  // Soundness: whatever the matcher accepts is in the language.
  // ---------------------------------------------------------------------

  /** A run of `m` digits from `q` that `f` or a `;` ends is the run the language counts. */
  lemma DigitsInIs(s: string, q: nat, m: nat, f: nat)
    requires q + m <= f <= |s| && m <= DigitsFrom(s, q)
    requires q + m < f ==> s[q + m] == ';'
    ensures DigitsIn(s, q, f) == m
  {
    if q + m < f {
      DigitsFromStops(s, q, q + m);
    }
  }

  /** A run of digits ends at the first character that is not a digit. */
  lemma {:induction false} DigitsFromStops(s: string, q: nat, x: nat)
    requires q <= x < |s| && !IsDigit(s[x])
    ensures DigitsFrom(s, q) <= x - q
    decreases x - q
  {
    if q < x && IsDigit(s[q]) {
      DigitsFromStops(s, q + 1, x);
    }
  }

  /** A `;`, `m` digits and then groups make groups. */
  lemma GroupWithTail(s: string, q: nat, m: nat, f: nat)
    requires 1 <= q && q + m <= f <= |s| && s[q - 1] == ';'
    requires m <= 4 && m <= DigitsFrom(s, q)
    requires IsGroupsIn(s, q + m, f)
    ensures IsGroupsIn(s, q - 1, f)
  {
    DigitsInIs(s, q, m, f);
  }

  /** One to four digits and then groups make the numeric part. */
  lemma NumberWithTail(s: string, k: nat, m: nat, f: nat)
    requires k + m <= f <= |s| && 1 <= m <= 4 && m <= DigitsFrom(s, k)
    requires IsGroupsIn(s, k + m, f)
    ensures IsNumbersIn(s, k, f)
  {
    DigitsInIs(s, k, m, f);
  }

  lemma {:induction false} GroupsSound(s: string, p: nat, e: nat)
    requires p <= |s| && GroupsAt(s, p) == Some(e)
    ensures p < e <= |s|
    ensures IsFinalChar(s[e - 1]) && IsGroupsIn(s, p, e - 1)
    decreases |s| - p, 0
  {
    var more := if p < |s| && s[p] == ';' then GroupDigitsAt(s, p + 1, Min4(DigitsFrom(s, p + 1))) else None;
    if more.Some? {
      GroupDigitsSound(s, p + 1, Min4(DigitsFrom(s, p + 1)), e);
    } else {
      assert FinalAt(s, p) == Some(e);
    }
  }

  lemma {:induction false} GroupDigitsSound(s: string, q: nat, m: nat, e: nat)
    requires 1 <= q <= |s| && s[q - 1] == ';' && m <= Min4(DigitsFrom(s, q))
    requires GroupDigitsAt(s, q, m) == Some(e)
    ensures q < e <= |s|
    ensures IsFinalChar(s[e - 1]) && IsGroupsIn(s, q - 1, e - 1)
    decreases |s| - q, m + 1
  {
    var r := GroupsAt(s, q + m);
    if r.Some? {
      assert r == Some(e);
      GroupsSound(s, q + m, e);
      GroupWithTail(s, q, m, e - 1);
    } else {
      assert GroupDigitsAt(s, q, m - 1) == Some(e);
      GroupDigitsSound(s, q, m - 1, e);
    }
  }

  lemma {:induction false} NumbersSound(s: string, k: nat, m: nat, e: nat)
    requires k <= |s| && m <= Min4(DigitsFrom(s, k))
    requires NumbersAt(s, k, m) == Some(e)
    ensures k < e <= |s|
    ensures IsFinalChar(s[e - 1]) && IsNumbersIn(s, k, e - 1)
    decreases m
  {
    assert m != 0;
    var r := GroupsAt(s, k + m);
    if r.Some? {
      assert r == Some(e);
      GroupsSound(s, k + m, e);
      NumberWithTail(s, k, m, e - 1);
    } else {
      assert NumbersAt(s, k, m - 1) == Some(e);
      NumbersSound(s, k, m - 1, e);
    }
  }

  lemma ParamsSound(s: string, k: nat, e: nat)
    requires k <= |s| && ParamsAt(s, k) == Some(e)
    ensures k < e <= |s|
    ensures IsFinalChar(s[e - 1]) && IsParametersIn(s, k, e - 1)
  {
    var m := Min4(DigitsFrom(s, k));
    if NumbersAt(s, k, m).Some? {
      NumbersSound(s, k, m, e);
    } else {
      assert FinalAt(s, k) == Some(e);
    }
  }

  /** Putting parameter characters in front keeps a string of parameters. */
  lemma {:induction false} PrependParamChars(s: string, j: nat, k: nat, f: nat)
    requires j + k <= f <= |s| && k <= ParamCharsFrom(s, j)
    requires IsParametersIn(s, j + k, f)
    ensures IsParametersIn(s, j, f)
    decreases k
  {
    if k > 0 {
      assert IsParamChar(s[j]) && ParamCharsFrom(s, j) == 1 + ParamCharsFrom(s, j + 1);
      PrependParamChars(s, j + 1, k - 1, f);
    }
  }

  lemma {:induction false} PrefixSound(s: string, j: nat, k: nat, e: nat)
    requires j + k <= |s| && k <= ParamCharsFrom(s, j)
    requires PrefixAt(s, j, k) == Some(e)
    ensures j < e <= |s|
    ensures IsFinalChar(s[e - 1]) && IsParametersIn(s, j, e - 1)
    decreases k
  {
    var r := ParamsAt(s, j + k);
    if r.Some? {
      assert r == Some(e);
      ParamsSound(s, j + k, e);
      PrependParamChars(s, j, k, e - 1);
    } else {
      assert k != 0 && PrefixAt(s, j, k - 1) == Some(e);
      PrefixSound(s, j, k - 1, e);
    }
  }

  /** A match found by the engine is a string of the pattern's language. */
  lemma MatchAtSound(s: string, i: nat)
    requires i <= |s| && MatchAt(s, i).Some?
    ensures IsAnsiSequenceAt(s, i, MatchAt(s, i).value)
  {
    var e := MatchAt(s, i).value;
    assert PrefixAt(s, i + 1, ParamCharsFrom(s, i + 1)) == Some(e);
    PrefixSound(s, i + 1, ParamCharsFrom(s, i + 1), e);
  }

  // ---------------------------------------------------------------------
  // Completeness: backtracking does not miss a match.
  // ---------------------------------------------------------------------

  lemma {:induction false} GroupDigitsComplete(s: string, q: nat, m: nat, d: nat)
    requires q <= |s| && d <= m <= DigitsFrom(s, q)
    requires GroupsAt(s, q + d).Some?
    ensures GroupDigitsAt(s, q, m).Some?
    decreases m
  {
    if m > d && GroupsAt(s, q + m).None? {
      GroupDigitsComplete(s, q, m - 1, d);
    }
  }

  lemma {:induction false} GroupsComplete(s: string, p: nat, e: nat)
    requires p < e <= |s| && IsFinalChar(s[e - 1]) && IsGroupsIn(s, p, e - 1)
    ensures GroupsAt(s, p).Some?
    decreases e - p
  {
    if p < e - 1 {
      var d := DigitsIn(s, p + 1, e - 1);
      GroupsComplete(s, p + 1 + d, e);
      var m := Min4(DigitsFrom(s, p + 1));
      GroupDigitsComplete(s, p + 1, m, d);
      assert GroupDigitsAt(s, p + 1, m).Some?;
    } else {
      assert FinalAt(s, p) == Some(p + 1);
    }
  }

  lemma {:induction false} NumbersComplete(s: string, k: nat, m: nat, d: nat)
    requires k <= |s| && 1 <= d <= m <= DigitsFrom(s, k)
    requires GroupsAt(s, k + d).Some?
    ensures NumbersAt(s, k, m).Some?
    decreases m
  {
    if m > d && GroupsAt(s, k + m).None? {
      NumbersComplete(s, k, m - 1, d);
    }
  }

  lemma ParamsComplete(s: string, k: nat, e: nat)
    requires k < e <= |s| && IsFinalChar(s[e - 1]) && IsNumbersIn(s, k, e - 1)
    ensures ParamsAt(s, k).Some?
  {
    var d := DigitsIn(s, k, e - 1);
    GroupsComplete(s, k + d, e);
    var m := Min4(DigitsFrom(s, k));
    NumbersComplete(s, k, m, d);
    assert NumbersAt(s, k, m).Some?;
  }

  lemma {:induction false} PrefixComplete(s: string, j: nat, k: nat, d: nat)
    requires j + k <= |s| && d <= k
    requires ParamsAt(s, j + d).Some?
    ensures PrefixAt(s, j, k).Some?
    decreases k
  {
    if k > d && ParamsAt(s, j + k).None? {
      PrefixComplete(s, j, k - 1, d);
    }
  }

  /** How many parameter characters the engine keeps when the rest matches. */
  lemma {:induction false} ParametersWitness(s: string, j: nat, e: nat) returns (d: nat)
    requires j < e <= |s| && IsFinalChar(s[e - 1]) && IsParametersIn(s, j, e - 1)
    ensures d <= ParamCharsFrom(s, j)
    ensures ParamsAt(s, j + d).Some?
    decreases e - j
  {
    if j == e - 1 {
      assert FinalAt(s, j) == Some(e);
      d := 0;
    } else if IsNumbersIn(s, j, e - 1) {
      ParamsComplete(s, j, e);
      d := 0;
    } else {
      assert IsParamChar(s[j]) && IsParametersIn(s, j + 1, e - 1);
      var d' := ParametersWitness(s, j + 1, e);
      d := d' + 1;
      assert ParamCharsFrom(s, j) == 1 + ParamCharsFrom(s, j + 1);
    }
  }

  /** Whenever a string of the language starts at `i`, the engine finds a match at `i`. */
  lemma MatchAtComplete(s: string, i: nat, e: nat)
    requires IsAnsiSequenceAt(s, i, e)
    ensures MatchAt(s, i).Some?
  {
    var d := ParametersWitness(s, i + 1, e);
    PrefixComplete(s, i + 1, ParamCharsFrom(s, i + 1), d);
    assert MatchAt(s, i) == PrefixAt(s, i + 1, ParamCharsFrom(s, i + 1));
  }

  // ---------------------------------------------------------------------
  // Global replacement with the empty string
  // ---------------------------------------------------------------------

  /** `s[i..]` with every match removed, scanning left to right from `i`. */
  function StripFrom(s: string, i: nat): (r: string)
    requires i <= |s|
    ensures |r| <= |s| - i
    ensures (forall k :: i <= k < |s| ==> !IsIntroducer(s[k])) ==> r == s[i..]
    decreases |s| - i
  {
    if i == |s| then ""
    else
      match MatchAt(s, i)
      case Some(e) => StripFrom(s, e)
      case None =>
        assert s[i..] == [s[i]] + s[i + 1..];
        [s[i]] + StripFrom(s, i + 1)
  }

  /** `line.replace(ANSIStyleRegex, "")`. */
  function StripAnsi(s: string): (r: string)
    ensures |r| <= |s|
    ensures (forall k :: 0 <= k < |s| ==> !IsIntroducer(s[k])) ==> r == s
  {
    StripFrom(s, 0)
  }

  /** The engine matches the colour reset `ESC [ 0 m` as one sequence of four characters. */
  lemma ColourResetMatches(s: string, i: nat)
    requires i + 4 <= |s|
    requires s[i] == '\U{1B}' && s[i + 1] == '[' && s[i + 2] == '0' && s[i + 3] == 'm'
    ensures MatchAt(s, i) == Some(i + 4)
  {
    assert ParamCharsFrom(s, i + 2) == 0;
    assert ParamCharsFrom(s, i + 1) == 1;
    assert DigitsFrom(s, i + 3) == 0;
    assert DigitsFrom(s, i + 2) == 1;
    assert GroupsAt(s, i + 3) == Some(i + 4);
    assert NumbersAt(s, i + 2, 1) == Some(i + 4);
    assert ParamsAt(s, i + 2) == Some(i + 4);
  }

  /** A character that cannot start a sequence is copied through. */
  lemma StripPlainChar(s: string, i: nat)
    requires i < |s| && !IsIntroducer(s[i])
    ensures StripFrom(s, i) == [s[i]] + StripFrom(s, i + 1)
  {
  }

  /** A slice is its first character followed by the rest. */
  lemma ConsSlice(s: string, i: nat, j: nat, x: string)
    requires i < j <= |s|
    ensures [s[i]] + (s[i + 1..j] + x) == s[i..j] + x
  {
    assert s[i..j] == [s[i]] + s[i + 1..j];
  }

  /** Characters that cannot start a sequence are copied through unchanged. */
  lemma {:induction false} StripPlainRun(s: string, i: nat, j: nat)
    requires i <= j <= |s|
    requires forall k :: i <= k < j ==> !IsIntroducer(s[k])
    ensures StripFrom(s, i) == s[i..j] + StripFrom(s, j)
    decreases j - i
  {
    if i < j {
      var rest := StripFrom(s, j);
      StripPlainChar(s, i);
      StripPlainRun(s, i + 1, j);
      ConsSlice(s, i, j, rest);
    }
  }

  /** The colour reset `ESC [ 0 m`. */
  const ColourReset: string := "\U{1B}[0m"

  /** A colour reset on both sides of plain text leaves only the text. */
  lemma StripColourReset(t: string)
    requires forall k :: 0 <= k < |t| ==> !IsIntroducer(t[k])
    ensures StripAnsi(ColourReset + t + ColourReset) == t
  {
    var s := ColourReset + t + ColourReset;
    var n := |t| + 4;
    ColourResetMatches(s, 0);
    ColourResetMatches(s, n);
    StripPlainRun(s, 4, n);
    assert s[4..n] == t;
    assert StripFrom(s, n + 4) == "";
  }
}

=== FILE: client.dfy ===
/**
 * The `SishClient` object: it is built from a configuration, keeps the
 * tunnel address, the ready flag and what it has emitted, and updates them
 * as the ssh process's standard output arrives, chunk by chunk.
 */
module Client {
  import opened Wrappers
  import opened Strings
  import opened Ansi
  import opened Config
  import opened Session

  class SishClient {
    /** The argument vector the ssh process is started with. */
    const spawnArgs: seq<string>
    /** The address of the tunnel, once announced; read through the `tunnelURL` getter. */
    var tunnelURL: Option<string>
    var ready: bool
    /** Everything emitted so far, in order. */
    var events: seq<Event>

    /** The observable state of this client. */
    function State(): ClientState
      reads this
    {
      ClientState(tunnelURL, ready, events)
    }

    /** A client whose checks passed, before any output: not ready, no address. */
    constructor (args: seq<string>)
      ensures spawnArgs == args
      ensures State() == Initial
    {
      spawnArgs := args;
      tunnelURL := None;
      ready := false;
      events := [];
    }

    /**
     * The TypeScript constructor: reject a configuration without a relay
     * host, or with a subdomain on a port other than 80; otherwise build the
     * forwarding spec and the ssh arguments.
     */
    static method Create(config: SishClientConfig) returns (r: Result<SishClient, ConfigError>)
      ensures r.Failure? <==> Configure(config).Failure?
      ensures r.Failure? ==> r.error == Configure(config).error
      ensures r.Success? ==>
                && fresh(r.value)
                && r.value.spawnArgs == Configure(config).value
                && r.value.State() == Initial
    {
      var localHost := config.localHost.GetOr(DefaultLocalHost);
      var remotePort := config.remotePort.GetOr(DefaultRemotePort);
      if !Truthy(config.sishHost) {
        return Failure(SishHostNotProvided);
      }
      if Truthy(config.subdomain) && remotePort != 80 {
        return Failure(TcpAliasNotSupported);
      }
      var params := IntToString(remotePort) + ":" + localHost + ":" + IntToString(config.localPort);
      if Truthy(config.subdomain) {
        params := config.subdomain.value + ":" + params;
      }
      var args := ["ssh", "-o StrictHostKeyChecking=no", "-T", "-R " + params, config.sishHost.value];
      var client := new SishClient(args);
      return Success(client);
    }

    /**
     * Handles the decoded chunks of standard output, in order: each chunk is
     * split on CRLF and each non-empty segment is handled as `Step` says.
     */
    method ProcessStdout(chunks: seq<string>)
      modifies this
      ensures State() == HandleChunks(old(State()), chunks)
    {
      for i := 0 to |chunks|
        invariant State() == HandleChunks(old(State()), chunks[..i])
      {
        var lines := Split(chunks[i], LineBreak);
        ghost var before := State();
        for j := 0 to |lines|
          invariant State() == Steps(before, lines[..j])
        {
          var line := lines[j];
          assert Steps(before, lines[..j + 1]) == Step(State(), line) by {
            assert lines[..j + 1][..j] == lines[..j];
          }
          if line == "" {
            continue;
          }
          var clearText := StripAnsi(line);
          if StartsWith(clearText, HttpPrefix) {
            tunnelURL := Some(ReplaceFirst(ReplaceFirst(clearText, HttpPrefix, ""), "http", "https"));
            ready := true;
            events := events + [Ready(HTTPS, tunnelURL.value)];
          } else if StartsWith(clearText, TcpPrefix) {
            tunnelURL := Some(ReplaceFirst(clearText, TcpPrefix, ""));
            ready := true;
            events := events + [Ready(TCP, tunnelURL.value)];
          } else {
            if !ready {
              continue;
            }
            events := events + [Log(line)];
          }
        }
        assert chunks[..i + 1][..i] == chunks[..i];
        assert lines[..|lines|] == lines;
      }
      assert chunks[..|chunks|] == chunks;
    }

    /** Stops the tunnel: the address is forgotten; the ready flag is left as it was. */
    method Disconnect()
      modifies this
      ensures State() == Disconnected(old(State()))
    {
      tunnelURL := None;
    }
  }
}

=== FILE: config.dfy ===
/**
 * What the `SishClient` constructor does before it starts the ssh process:
 * it checks the configuration, builds the reverse-forwarding argument
 * `[subdomain:]remote_port:local_host:local_port` and the argument vector
 * `ssh -o StrictHostKeyChecking=no -T -R <spec> <sish_host>`.
 */
module Config {
  import opened Wrappers
  import opened Strings

  /**
   * The constructor's argument. An absent optional property (`undefined`)
   * is `None`; ports are integers.
   */
  datatype SishClientConfig = SishClientConfig(
    localPort: int,
    remotePort: Option<int>,
    localHost: Option<string>,
    subdomain: Option<string>,
    sishHost: Option<string>)

  const DefaultLocalHost: string := "localhost"
  const DefaultRemotePort: int := 80

  /** The errors the constructor throws. */
  datatype ConfigError = SishHostNotProvided | TcpAliasNotSupported {
    function Message(): string {
      match this
      case SishHostNotProvided => "sish_host not provided"
      case TcpAliasNotSupported => "TCP alias not supported"
    }
  }

  /** JavaScript truthiness of an optional string: present and not empty. */
  predicate Truthy(s: Option<string>) {
    s.Some? && s.value != ""
  }

  /** A destructuring default applies only when the property is absent. */
  function RemotePort(c: SishClientConfig): int {
    c.remotePort.GetOr(DefaultRemotePort)
  }

  function LocalHost(c: SishClientConfig): string {
    c.localHost.GetOr(DefaultLocalHost)
  }

  /** The argument of `-R`. */
  function ForwardingSpec(c: SishClientConfig): string {
    var params := IntToString(RemotePort(c)) + ":" + LocalHost(c) + ":" + IntToString(c.localPort);
    if Truthy(c.subdomain) then c.subdomain.value + ":" + params else params
  }

  /** The fields of the forwarding spec, in the order they are written. */
  function SpecFields(c: SishClientConfig): seq<string> {
    (if Truthy(c.subdomain) then [c.subdomain.value] else [])
    + [IntToString(RemotePort(c)), LocalHost(c), IntToString(c.localPort)]
  }

  /**
   * The constructor's checks and the argument vector of the ssh process.
   * A missing relay host is reported first; a subdomain is only accepted
   * with remote port 80.
   */
  function Configure(c: SishClientConfig): (r: Result<seq<string>, ConfigError>)
    ensures r.Failure? <==> !Truthy(c.sishHost) || (Truthy(c.subdomain) && RemotePort(c) != 80)
    ensures r == Failure(SishHostNotProvided) <==> !Truthy(c.sishHost)
    ensures r.Success? ==>
              && |r.value| == 5
              && r.value[..3] == ["ssh", "-o StrictHostKeyChecking=no", "-T"]
              && r.value[3] == "-R " + ForwardingSpec(c)
              && r.value[4] == c.sishHost.value && c.sishHost.value != ""
  {
    if !Truthy(c.sishHost) then Failure(SishHostNotProvided)
    else if Truthy(c.subdomain) && RemotePort(c) != 80 then Failure(TcpAliasNotSupported)
    else Success(["ssh", "-o StrictHostKeyChecking=no", "-T", "-R " + ForwardingSpec(c), c.sishHost.value])
  }

  /**
   * Read back on `:`, the forwarding spec gives the optional subdomain, the
   * remote port, the local host and the local port, as long as neither the
   * host nor the subdomain holds a `:` itself.
   */
  lemma ForwardingSpecFields(c: SishClientConfig)
    requires ':' !in LocalHost(c)
    requires Truthy(c.subdomain) ==> ':' !in c.subdomain.value
    ensures Split(ForwardingSpec(c), ":") == SpecFields(c)
    ensures var f := SpecFields(c);
            ParseInt(f[|f| - 3]) == RemotePort(c) && f[|f| - 2] == LocalHost(c) && ParseInt(f[|f| - 1]) == c.localPort
  {
    JoinSpecFields(c);
    var f := SpecFields(c);
    assert forall k :: 0 <= k < |f| ==> ':' !in f[k];
    SplitOfJoin(f, ':');
    ParseIntOfIntToString(RemotePort(c));
    ParseIntOfIntToString(c.localPort);
  }

  /** The forwarding spec is its fields joined with `:`. */
  lemma JoinSpecFields(c: SishClientConfig)
    ensures Join(SpecFields(c), ":") == ForwardingSpec(c)
  {
    var remote, host, local := IntToString(RemotePort(c)), LocalHost(c), IntToString(c.localPort);
    var tail := [remote, host, local];
    assert Join([local], ":") == local;
    assert Join([host, local], ":") == host + ":" + local by {
      assert [host, local][1..] == [local];
    }
    assert Join(tail, ":") == remote + ":" + host + ":" + local by {
      assert tail[1..] == [host, local];
    }
    if Truthy(c.subdomain) {
      assert ([c.subdomain.value] + tail)[1..] == tail;
    } else {
      assert [] + tail == tail;
    }
  }

  /**
   * A destructuring default replaces only an absent property: a falsy
   * remote port or an empty local host is written into the spec as given.
   */
  lemma FalsyPropertiesKept(c: SishClientConfig)
    requires c.remotePort == Some(0) && c.localHost == Some("") && !Truthy(c.subdomain)
    ensures ForwardingSpec(c) == "0::" + IntToString(c.localPort)
  {
    assert IntToString(0) == "0";
  }

  /** A subdomain with the default remote port is accepted. */
  lemma SubdomainWithDefaultPort(c: SishClientConfig)
    requires Truthy(c.sishHost) && Truthy(c.subdomain) && c.remotePort.None?
    ensures Configure(c).Success?
    ensures StartsWith(ForwardingSpec(c), c.subdomain.value + ":80:")
  {
    assert NatToString(8) == "8";
    assert NatToString(80) == NatToString(8) + "0";
    assert IntToString(80) == "80";
  }
}

=== FILE: session.dfy ===
/**
 * The tunnel session: the state a `SishClient` keeps while the ssh process
 * runs, and how each chunk of the process's standard output changes it.
 *
 * Each chunk is split on CRLF; every non-empty segment is cleaned of
 * terminal styling and classified by its prefix. `HTTP: ` and `TCP: `
 * announce the tunnel address, set it and the ready flag and emit `ready`;
 * any other segment is emitted as `log` (the raw segment, not the cleaned
 * one) once the session is ready, and dropped before that.
 *
 * The `EventEmitter` is replaced by the sequence of events emitted so far.
 */
module Session {
  import opened Wrappers
  import opened Strings
  import opened Ansi

  datatype TunnelKind = HTTPS | TCP

  /** What the client emits: `ready(type, tunnel)` and `log(data)`. */
  datatype Event = Ready(kind: TunnelKind, tunnel: string) | Log(data: string)

  const HttpPrefix: string := "HTTP: "
  const TcpPrefix: string := "TCP: "
  const LineBreak: string := "\r\n"

  /** What a cleaned segment says about the tunnel. */
  datatype Announcement = HttpTunnel(url: string) | TcpTunnel(url: string) | NoTunnel

  /**
   * Classification of a cleaned segment. `HTTP: ` is checked first; the
   * address after it has its first `http` turned into `https`.
   */
  function Classify(clearText: string): (a: Announcement)
    ensures a.HttpTunnel? <==> StartsWith(clearText, HttpPrefix)
    ensures a.TcpTunnel? <==> !StartsWith(clearText, HttpPrefix) && StartsWith(clearText, TcpPrefix)
    ensures a.HttpTunnel? ==> a.url == ReplaceFirst(clearText[|HttpPrefix|..], "http", "https")
    ensures a.TcpTunnel? ==> a.url == clearText[|TcpPrefix|..]
  {
    if StartsWith(clearText, HttpPrefix) then
      var address := ReplaceFirst(clearText, HttpPrefix, "");
      assert address == clearText[|HttpPrefix|..];
      HttpTunnel(ReplaceFirst(address, "http", "https"))
    else if StartsWith(clearText, TcpPrefix) then
      var address := ReplaceFirst(clearText, TcpPrefix, "");
      assert address == clearText[|TcpPrefix|..];
      TcpTunnel(address)
    else
      NoTunnel
  }

  /** A segment of output that announces the tunnel. */
  predicate IsAnnouncement(line: string) {
    line != "" && !Classify(StripAnsi(line)).NoTunnel?
  }

  /** The event an announcing segment emits. */
  function ReadyEvent(line: string): Event
    requires IsAnnouncement(line)
  {
    match Classify(StripAnsi(line))
    case HttpTunnel(url) => Ready(HTTPS, url)
    case TcpTunnel(url) => Ready(TCP, url)
  }

  /** The observable state of a client: `tunnelURL`, `_ready` and the events emitted so far. */
  datatype ClientState = ClientState(tunnelURL: Option<string>, ready: bool, events: seq<Event>)

  /** A client just constructed: no address, not ready, nothing emitted. */
  const Initial: ClientState := ClientState(None, false, [])

  /** The handling of one segment of a chunk. */
  function Step(st: ClientState, line: string): (r: ClientState)
    ensures line == "" ==> r == st
    ensures r.ready <==> st.ready || IsAnnouncement(line)
    ensures IsAnnouncement(line) ==>
              && r.tunnelURL == Some(ReadyEvent(line).tunnel)
              && r.ready
              && r.events == st.events + [ReadyEvent(line)]
    ensures line != "" && StartsWith(StripAnsi(line), HttpPrefix) ==>
              r.events == st.events + [Ready(HTTPS, ReplaceFirst(StripAnsi(line)[|HttpPrefix|..], "http", "https"))]
    ensures line != "" && !StartsWith(StripAnsi(line), HttpPrefix) && StartsWith(StripAnsi(line), TcpPrefix) ==>
              r.events == st.events + [Ready(TCP, StripAnsi(line)[|TcpPrefix|..])]
    ensures !IsAnnouncement(line) && !st.ready ==> r == st
    ensures line != "" && !IsAnnouncement(line) && st.ready ==>
              r == st.(events := st.events + [Log(line)])
  {
    if line == "" then st
    else
      match Classify(StripAnsi(line))
      case HttpTunnel(url) => ClientState(Some(url), true, st.events + [Ready(HTTPS, url)])
      case TcpTunnel(url) => ClientState(Some(url), true, st.events + [Ready(TCP, url)])
      case NoTunnel => if st.ready then st.(events := st.events + [Log(line)]) else st
  }

  /** The segments of a chunk, left to right, handled one after the other. */
  function Steps(st: ClientState, lines: seq<string>): ClientState
    decreases |lines|
  {
    if lines == [] then st else Step(Steps(st, lines[..|lines| - 1]), lines[|lines| - 1])
  }

  /** The pieces of one decoded chunk. */
  function Segments(chunk: string): seq<string> {
    Split(chunk, LineBreak)
  }

  /** The chunks of standard output, in order, each split on its own. */
  function HandleChunks(st: ClientState, chunks: seq<string>): ClientState
    decreases |chunks|
  {
    if chunks == [] then st
    else Steps(HandleChunks(st, chunks[..|chunks| - 1]), Segments(chunks[|chunks| - 1]))
  }

  /** The segments of all chunks, in stream order. */
  function AllSegments(chunks: seq<string>): seq<string>
    decreases |chunks|
  {
    if chunks == [] then [] else AllSegments(chunks[..|chunks| - 1]) + Segments(chunks[|chunks| - 1])
  }

  // ---------------------------------------------------------------------
  // Properties of the handling of output
  // ---------------------------------------------------------------------

  /** Handling two runs of segments is handling their concatenation. */
  lemma {:induction false} StepsAppend(st: ClientState, a: seq<string>, b: seq<string>)
    ensures Steps(st, a + b) == Steps(Steps(st, a), b)
    decreases |b|
  {
    if b != [] {
      InitOfAppend(a, b);
      StepsAppend(st, a, b[..|b| - 1]);
    } else {
      assert a + b == a;
    }
  }

  /** Dropping the last element of `a + b`, for a non-empty `b`, drops it from `b`. */
  lemma InitOfAppend<T>(a: seq<T>, b: seq<T>)
    requires b != []
    ensures (a + b)[..|a + b| - 1] == a + b[..|b| - 1]
    ensures (a + b)[|a + b| - 1] == b[|b| - 1]
  {
  }

  /**
   * Chunks carry nothing over to each other: the stream behaves as the
   * concatenation of every chunk's own segments.
   */
  lemma {:induction false} ChunksAreSplitIndependently(st: ClientState, chunks: seq<string>)
    ensures HandleChunks(st, chunks) == Steps(st, AllSegments(chunks))
    decreases |chunks|
  {
    if chunks != [] {
      var init := chunks[..|chunks| - 1];
      ChunksAreSplitIndependently(st, init);
      StepsAppend(st, AllSegments(init), Segments(chunks[|chunks| - 1]));
    }
  }

  /** The number of `ready` events among `events`. */
  function CountReady(events: seq<Event>): nat
    decreases |events|
  {
    if events == [] then 0
    else CountReady(events[..|events| - 1]) + (if events[|events| - 1].Ready? then 1 else 0)
  }

  /** The number of announcing segments among `lines`. */
  function CountAnnouncements(lines: seq<string>): nat
    decreases |lines|
  {
    if lines == [] then 0
    else CountAnnouncements(lines[..|lines| - 1]) + (if IsAnnouncement(lines[|lines| - 1]) then 1 else 0)
  }

  /** The session is ready exactly when it was, or some segment announced the tunnel. */
  lemma {:induction false} ReadyIffAnnounced(st: ClientState, lines: seq<string>)
    ensures Steps(st, lines).ready <==> st.ready || CountAnnouncements(lines) > 0
    decreases |lines|
  {
    if lines != [] {
      ReadyIffAnnounced(st, lines[..|lines| - 1]);
    }
  }

  /** Once ready, a session stays ready, whatever output follows. */
  lemma ReadyNeverReverts(st: ClientState, chunks: seq<string>)
    requires st.ready
    ensures HandleChunks(st, chunks).ready
  {
    ChunksAreSplitIndependently(st, chunks);
    ReadyIffAnnounced(st, AllSegments(chunks));
  }

  /** Events are only ever appended. */
  lemma {:induction false} EventsOnlyAppended(st: ClientState, lines: seq<string>)
    ensures |Steps(st, lines).events| >= |st.events|
    ensures Steps(st, lines).events[..|st.events|] == st.events
    decreases |lines|
  {
    if lines != [] {
      var mid := Steps(st, lines[..|lines| - 1]);
      EventsOnlyAppended(st, lines[..|lines| - 1]);
      assert mid.events[..|st.events|] == st.events;
      var r := Step(mid, lines[|lines| - 1]);
      assert r.events[..|mid.events|] == mid.events;
      assert r.events[..|st.events|] == mid.events[..|st.events|];
    }
  }

  /** Before the tunnel is announced, output changes nothing and emits nothing. */
  lemma {:induction false} QuietUntilAnnounced(st: ClientState, lines: seq<string>)
    requires !st.ready
    requires forall k :: 0 <= k < |lines| ==> !IsAnnouncement(lines[k])
    ensures Steps(st, lines) == st
    decreases |lines|
  {
    if lines != [] {
      QuietUntilAnnounced(st, lines[..|lines| - 1]);
    }
  }

  /** Without an announcement, the tunnel address stays what it was. */
  lemma {:induction false} AddressKeptWithoutAnnouncement(st: ClientState, lines: seq<string>)
    requires forall k :: 0 <= k < |lines| ==> !IsAnnouncement(lines[k])
    ensures Steps(st, lines).tunnelURL == st.tunnelURL
    ensures Steps(st, lines).ready == st.ready
    decreases |lines|
  {
    if lines != [] {
      AddressKeptWithoutAnnouncement(st, lines[..|lines| - 1]);
    }
  }

  /** The tunnel address is the one of the last announcing segment. */
  lemma {:induction false} AddressOfLastAnnouncement(st: ClientState, lines: seq<string>, k: nat)
    requires k < |lines| && IsAnnouncement(lines[k])
    requires forall j :: k < j < |lines| ==> !IsAnnouncement(lines[j])
    ensures Steps(st, lines).tunnelURL == Some(ReadyEvent(lines[k]).tunnel)
    decreases |lines|
  {
    if k < |lines| - 1 {
      AddressOfLastAnnouncement(st, lines[..|lines| - 1], k);
    }
  }

  /** Exactly one `ready` is emitted per announcing segment. */
  lemma {:induction false} OneReadyPerAnnouncement(st: ClientState, lines: seq<string>)
    ensures CountReady(Steps(st, lines).events) == CountReady(st.events) + CountAnnouncements(lines)
    decreases |lines|
  {
    if lines != [] {
      var mid := Steps(st, lines[..|lines| - 1]);
      OneReadyPerAnnouncement(st, lines[..|lines| - 1]);
      var line := lines[|lines| - 1];
      var r := Step(mid, line);
      if r.events != mid.events {
        assert r.events[..|r.events| - 1] == mid.events;
      }
    }
  }

  /** Every `log` event emitted carries a raw, non-announcing segment of the output. */
  lemma {:induction false} LogsAreRawSegments(st: ClientState, lines: seq<string>)
    ensures var events := Steps(st, lines).events;
            |events| >= |st.events| &&
            forall i :: |st.events| <= i < |events| && events[i].Log? ==>
              events[i].data in lines && events[i].data != "" && !IsAnnouncement(events[i].data)
    decreases |lines|
  {
    if lines != [] {
      var init := lines[..|lines| - 1];
      LogsAreRawSegments(st, init);
      EventsOnlyAppended(Steps(st, init), [lines[|lines| - 1]]);
      assert Steps(Steps(st, init), [lines[|lines| - 1]]) == Steps(st, lines) by {
        assert [lines[|lines| - 1]][..0] == [];
      }
      forall x | x in init ensures x in lines {
        var j :| 0 <= j < |init| && init[j] == x;
        assert lines[j] == x;
      }
    }
  }

  // ---------------------------------------------------------------------
  // Whole lines
  // ---------------------------------------------------------------------

  predicate NoLineBreak(x: string) {
    forall j: nat :: j < |x| ==> !OccursAt(x, LineBreak, j)
  }

  /** A line followed by CRLF splits into the line and an empty tail. */
  lemma SplitTerminatedLine(x: string)
    requires NoLineBreak(x)
    ensures Segments(x + LineBreak) == [x, ""]
  {
    var s := x + LineBreak;
    assert |LineBreak| == 2;
    forall j: nat | j < |x| ensures !OccursAt(s, LineBreak, j) {
      if j + 2 <= |x| {
        assert !OccursAt(x, LineBreak, j);
        assert s[j..j + 2] == x[j..j + 2];
      } else {
        assert s[j..j + 2][1] == s[j + 1] == '\r' != LineBreak[1];
      }
    }
    assert OccursAt(s, LineBreak, |x|);
    assert s[..|x|] == x;
    assert s[|x| + 2..] == "";
    assert Split("", LineBreak) == [""];
  }

  /** A chunk holding one CRLF-terminated line is handled as that line alone. */
  lemma OneLineChunk(st: ClientState, line: string)
    requires NoLineBreak(line)
    ensures HandleChunks(st, [line + LineBreak]) == Step(st, line)
  {
    SplitTerminatedLine(line);
    assert [line + LineBreak][..0] == [];
    assert Steps(st, [line]) == Step(st, line) by {
      assert [line][..0] == [];
    }
    assert Steps(st, [line, ""]) == Step(Steps(st, [line]), "") by {
      assert [line, ""][..1] == [line];
    }
  }

  /** Text without a carriage return holds no line break. */
  lemma NoCarriageReturn(x: string)
    requires forall k :: 0 <= k < |x| ==> x[k] != '\r'
    ensures NoLineBreak(x)
  {
    forall j: nat | j < |x| ensures !OccursAt(x, LineBreak, j) {
      assert j + 2 <= |x| ==> x[j..j + 2][0] == x[j] != LineBreak[0];
    }
  }

  /** A plain line (no styling, no carriage return) ending in CRLF is handled as the line itself. */
  lemma PlainLineChunk(st: ClientState, line: string)
    requires forall k :: 0 <= k < |line| ==> !IsIntroducer(line[k]) && line[k] != '\r'
    ensures StripAnsi(line) == line
    ensures HandleChunks(st, [line + LineBreak]) == Step(st, line)
  {
    NoCarriageReturn(line);
    OneLineChunk(st, line);
  }

  /** The first `http` of `http://<host>` becomes `https`. */
  lemma HttpsRewrite(host: string)
    ensures ReplaceFirst("http://" + host, "http", "https") == "https://" + host
  {
    var address := "http://" + host;
    assert StartsWith(address, "http") by {
      assert address[..4] == "http";
    }
    assert address[4..] == "://" + host;
  }

  /** A clean line starting with `HTTP: ` sets the rewritten address, sets ready and emits `ready("HTTPS", ...)`. */
  lemma HttpStep(st: ClientState, line: string, address: string)
    requires StripAnsi(line) == line && StartsWith(line, HttpPrefix) && line[|HttpPrefix|..] == address
    ensures var url := ReplaceFirst(address, "http", "https");
            Step(st, line) == ClientState(Some(url), true, st.events + [Ready(HTTPS, url)])
  {
  }

  /** `HTTP: http://<host>` then CRLF: the address becomes `https://<host>`, announced once. */
  lemma HttpReadyLine(st: ClientState, host: string)
    requires forall k :: 0 <= k < |host| ==> !IsIntroducer(host[k]) && host[k] != '\r'
    ensures var url := "https://" + host;
            HandleChunks(st, ["HTTP: http://" + host + LineBreak])
              == ClientState(Some(url), true, st.events + [Ready(HTTPS, url)])
  {
    var address := "http://" + host;
    var line := HttpPrefix + address;
    assert line == "HTTP: http://" + host;
    assert forall k :: 0 <= k < |line| ==> !IsIntroducer(line[k]) && line[k] != '\r' by {
      forall k | 0 <= k < |line| ensures !IsIntroducer(line[k]) && line[k] != '\r' {
        if k >= 13 {
          assert line[k] == host[k - 13];
        }
      }
    }
    PlainLineChunk(st, line);
    assert StartsWith(line, HttpPrefix) && line[|HttpPrefix|..] == address by {
      assert line[..6] == HttpPrefix;
    }
    HttpStep(st, line, address);
    HttpsRewrite(host);
  }

  /** `TCP: <address>` then CRLF: the address is taken as it is. */
  lemma TcpReadyLine(st: ClientState, address: string)
    requires forall k :: 0 <= k < |address| ==> !IsIntroducer(address[k]) && address[k] != '\r'
    ensures HandleChunks(st, ["TCP: " + address + LineBreak])
              == ClientState(Some(address), true, st.events + [Ready(TCP, address)])
  {
    var line := TcpPrefix + address;
    forall k | 0 <= k < |line| ensures !IsIntroducer(line[k]) && line[k] != '\r' {
      if k >= 5 {
        assert line[k] == address[k - 5];
      }
    }
    PlainLineChunk(st, line);
    assert !StartsWith(line, HttpPrefix) by {
      assert line[0] == 'T' != HttpPrefix[0];
    }
    assert StartsWith(line, TcpPrefix) && line[|TcpPrefix|..] == address by {
      assert line[..5] == TcpPrefix;
    }
    assert line == "TCP: " + address;
  }

  /**
   * Once ready, a styled line is logged as it arrived: the styling is
   * removed only to classify it, not from the `log` event.
   */
  lemma LogKeepsStyling(st: ClientState, text: string)
    requires st.ready
    requires forall k :: 0 <= k < |text| ==> !IsIntroducer(text[k])
    requires !StartsWith(text, HttpPrefix) && !StartsWith(text, TcpPrefix)
    ensures var line := ColourReset + text + ColourReset;
            Step(st, line) == st.(events := st.events + [Log(line)])
  {
    var line := ColourReset + text + ColourReset;
    StripColourReset(text);
    assert line != "" by {
      assert |line| >= 8;
    }
  }

  /**
   * A line cut by a chunk boundary is not put back together: each piece
   * is handled as a segment of its own.
   */
  lemma ChunkBoundaryEndsSegment(st: ClientState, a: string, b: string)
    requires NoLineBreak(a) && NoLineBreak(b)
    ensures HandleChunks(st, [a, b]) == Step(Step(st, a), b)
  {
    forall j: nat ensures !OccursAt(a, LineBreak, j) && !OccursAt(b, LineBreak, j) {
    }
    assert Segments(a) == [a] && Segments(b) == [b];
    assert Steps(st, [a]) == Step(st, a) by {
      assert [a][..0] == [];
    }
    assert HandleChunks(st, [a]) == Step(st, a) by {
      assert [a][..0] == [];
    }
    assert Steps(Step(st, a), [b]) == Step(Step(st, a), b) by {
      assert [b][..0] == [];
    }
    assert HandleChunks(st, [a, b]) == Steps(HandleChunks(st, [a]), [b]) by {
      assert [a, b][..1] == [a];
    }
  }

  // ---------------------------------------------------------------------
  // Disconnecting
  // ---------------------------------------------------------------------

  /**
   * What `disconnect` does to the state: the address is forgotten, while
   * the ready flag and the events emitted so far are kept.
   */
  function Disconnected(st: ClientState): (r: ClientState)
    ensures r.tunnelURL.None?
    ensures r.ready == st.ready && r.events == st.events
  {
    st.(tunnelURL := None)
  }

  /**
   * After a disconnect, output that announces nothing leaves the address
   * unset, and a session that was ready still logs every non-empty segment.
   */
  lemma {:induction false} OutputAfterDisconnect(st: ClientState, lines: seq<string>)
    requires forall k :: 0 <= k < |lines| ==> !IsAnnouncement(lines[k])
    ensures Steps(Disconnected(st), lines).tunnelURL.None?
    ensures Steps(Disconnected(st), lines).ready == st.ready
    ensures st.ready && |lines| > 0 && lines[|lines| - 1] != "" ==>
              Steps(Disconnected(st), lines).events[|Steps(Disconnected(st), lines).events| - 1] == Log(lines[|lines| - 1])
    decreases |lines|
  {
    AddressKeptWithoutAnnouncement(Disconnected(st), lines);
    if lines != [] {
      AddressKeptWithoutAnnouncement(Disconnected(st), lines[..|lines| - 1]);
    }
  }
}

=== FILE: strings.dfy ===
/**
 * The handful of JavaScript string operations the client relies on:
 * `startsWith`, `indexOf`, `replace` with a string pattern, `split` with a
 * string separator, and the decimal rendering of an integer inside a
 * template literal.
 */
module Strings {
  import opened Wrappers

  predicate StartsWith(s: string, prefix: string) {
    |prefix| <= |s| && s[..|prefix|] == prefix
  }

  /** `pat` occurs in `s` starting at index `i`. */
  predicate OccursAt(s: string, pat: string, i: nat) {
    i + |pat| <= |s| && s[i..i + |pat|] == pat
  }

  /** The first occurrence of `pat` in `s` at or after index `k`. */
  function IndexOfFrom(s: string, pat: string, k: nat): (r: Option<nat>)
    requires k <= |s|
    ensures r.Some? ==> k <= r.value && OccursAt(s, pat, r.value)
    ensures r.Some? ==> forall j: nat :: k <= j < r.value ==> !OccursAt(s, pat, j)
    ensures r.None? ==> forall j: nat :: k <= j ==> !OccursAt(s, pat, j)
    decreases |s| - k
  {
    if OccursAt(s, pat, k) then Some(k)
    else if k == |s| then None
    else IndexOfFrom(s, pat, k + 1)
  }

  /** `String.prototype.indexOf`: the least index where `pat` occurs. */
  function IndexOf(s: string, pat: string): (r: Option<nat>)
    ensures r.Some? ==> OccursAt(s, pat, r.value)
    ensures r.Some? ==> forall j: nat :: j < r.value ==> !OccursAt(s, pat, j)
    ensures r.None? <==> forall j: nat :: !OccursAt(s, pat, j)
  {
    IndexOfFrom(s, pat, 0)
  }

  /**
   * `String.prototype.replace` with a string pattern: only the first
   * occurrence is replaced. The replacement is taken literally (the two
   * replacements the client uses contain no `$` pattern).
   */
  function ReplaceFirst(s: string, pat: string, rep: string): (r: string)
    ensures (forall j: nat :: !OccursAt(s, pat, j)) ==> r == s
    ensures StartsWith(s, pat) ==> r == rep + s[|pat|..]
  {
    match IndexOf(s, pat)
    case None => s
    case Some(i) =>
      assert StartsWith(s, pat) ==> OccursAt(s, pat, 0) && i == 0;
      s[..i] + rep + s[i + |pat|..]
  }

  /** Only the first occurrence of the pattern is replaced. */
  lemma ReplaceFirstOccurrence(s: string, pat: string, rep: string, i: nat)
    requires OccursAt(s, pat, i)
    requires forall j: nat :: j < i ==> !OccursAt(s, pat, j)
    ensures ReplaceFirst(s, pat, rep) == s[..i] + rep + s[i + |pat|..]
  {
    var k := IndexOf(s, pat).value;
    assert !(k < i) && !(i < k);
  }

  /** `Array.prototype.join`. */
  function Join(parts: seq<string>, sep: string): string
  {
    if |parts| == 0 then ""
    else if |parts| == 1 then parts[0]
    else parts[0] + sep + Join(parts[1..], sep)
  }

  /**
   * `String.prototype.split` with a non-empty string separator: the pieces
   * between the non-overlapping occurrences of `sep`, found left to right.
   * Joining the pieces back gives the input, and no piece holds `sep`.
   */
  function Split(s: string, sep: string): (parts: seq<string>)
    requires |sep| > 0
    ensures |parts| >= 1
    ensures Join(parts, sep) == s
    ensures forall k, j: nat :: 0 <= k < |parts| ==> !OccursAt(parts[k], sep, j)
    decreases |s|
  {
    match IndexOf(s, sep)
    case None => [s]
    case Some(i) =>
      var rest := Split(s[i + |sep|..], sep);
      SplitAtFirst(s, sep, i, rest);
      [s[..i]] + rest
  }

  /**
   * Cutting `s` at the first occurrence of `sep`, at `i`, and splitting what
   * follows gives pieces that join back to `s` and hold no `sep`.
   */
  lemma SplitAtFirst(s: string, sep: string, i: nat, rest: seq<string>)
    requires |sep| > 0 && OccursAt(s, sep, i) && forall j: nat :: j < i ==> !OccursAt(s, sep, j)
    requires |rest| >= 1 && Join(rest, sep) == s[i + |sep|..]
    requires forall k, j: nat :: 0 <= k < |rest| ==> !OccursAt(rest[k], sep, j)
    ensures Join([s[..i]] + rest, sep) == s
    ensures forall k, j: nat :: 0 <= k < |rest| + 1 ==> !OccursAt(([s[..i]] + rest)[k], sep, j)
  {
    var first := s[..i];
    NoOccurrenceBefore(s, sep, i);
    JoinCons(first, rest, sep);
    CutAt(s, sep, i);
    var parts := [first] + rest;
    forall k, j: nat | 0 <= k < |parts| ensures !OccursAt(parts[k], sep, j) {
      if k > 0 {
        assert parts[k] == rest[k - 1];
      }
    }
  }

  /** Before the first occurrence of `sep`, no occurrence of it is complete. */
  lemma NoOccurrenceBefore(s: string, sep: string, i: nat)
    requires |sep| > 0 && i <= |s| && forall j: nat :: j < i ==> !OccursAt(s, sep, j)
    ensures forall j: nat :: !OccursAt(s[..i], sep, j)
  {
    var first := s[..i];
    forall j: nat ensures !OccursAt(first, sep, j) {
      if j + |sep| <= |first| {
        assert first[j..j + |sep|] == s[j..j + |sep|];
        assert OccursAt(first, sep, j) ==> OccursAt(s, sep, j);
      }
    }
  }

  lemma JoinCons(first: string, rest: seq<string>, sep: string)
    requires |rest| >= 1
    ensures Join([first] + rest, sep) == first + sep + Join(rest, sep)
  {
    assert ([first] + rest)[1..] == rest;
  }

  /** A string is what precedes an occurrence, the occurrence and what follows. */
  lemma CutAt(s: string, sep: string, i: nat)
    requires OccursAt(s, sep, i)
    ensures s == s[..i] + sep + s[i + |sep|..]
  {
  }

  /** Splitting a join on a one-character separator gives back the pieces. */
  lemma {:induction false} SplitOfJoin(parts: seq<string>, c: char)
    requires |parts| >= 1
    requires forall k :: 0 <= k < |parts| ==> c !in parts[k]
    ensures Split(Join(parts, [c]), [c]) == parts
  {
    var s := Join(parts, [c]);
    if |parts| == 1 {
      forall j: nat ensures !OccursAt(s, [c], j) {
        assert j < |s| ==> s[j..j + 1][0] == s[j] != c;
      }
    } else {
      var p0 := parts[0];
      var rest := Join(parts[1..], [c]);
      assert s == p0 + [c] + rest;
      assert OccursAt(s, [c], |p0|) by { assert s[|p0|..|p0| + 1] == [c]; }
      forall j: nat | j < |p0| ensures !OccursAt(s, [c], j) {
        assert s[j..j + 1][0] == s[j] == p0[j] != c;
      }
      var i := IndexOf(s, [c]).value;
      assert i == |p0|;
      assert s[..i] == p0;
      assert s[i + 1..] == rest;
      SplitOfJoin(parts[1..], c);
      assert Split(s, [c]) == [p0] + Split(rest, [c]);
    }
  }

  predicate IsDigit(c: char) {
    '0' <= c <= '9'
  }

  function DigitChar(d: nat): (c: char)
    requires d < 10
    ensures IsDigit(c)
  {
    ('0' as int + d) as char
  }

  function DigitValue(c: char): int {
    c as int - '0' as int
  }

  /** The decimal rendering of a natural number, most significant digit first. */
  function NatToString(n: nat): (r: string)
    ensures |r| >= 1
    ensures forall k :: 0 <= k < |r| ==> IsDigit(r[k])
    ensures r[0] == '0' <==> n == 0
  {
    if n < 10 then [DigitChar(n)] else NatToString(n / 10) + [DigitChar(n % 10)]
  }

  /** How `${n}` renders an integer inside a template literal. */
  function IntToString(n: int): (r: string)
    ensures |r| >= 1
    ensures n < 0 <==> r[0] == '-'
    ensures |r| > (if n < 0 then 1 else 0)
    ensures forall k :: (if n < 0 then 1 else 0) <= k < |r| ==> IsDigit(r[k])
    ensures r[if n < 0 then 1 else 0] == '0' ==> r == "0"
  {
    if n < 0 then "-" + NatToString(-n) else NatToString(n)
  }

  /** Reads a string of decimal digits back as a number. */
  function ParseNat(s: string): nat
  {
    if s == [] then 0
    else
      var d := DigitValue(s[|s| - 1]);
      10 * ParseNat(s[..|s| - 1]) + (if 0 <= d then d else 0)
  }

  function ParseInt(s: string): int
  {
    if |s| > 0 && s[0] == '-' then 0 - ParseNat(s[1..]) else ParseNat(s) as int
  }

  lemma {:induction false} ParseNatOfNatToString(n: nat)
    ensures ParseNat(NatToString(n)) == n
  {
    if n >= 10 {
      var s := NatToString(n);
      assert s[..|s| - 1] == NatToString(n / 10);
      ParseNatOfNatToString(n / 10);
    }
  }

  /** Rendering an integer in decimal loses nothing. */
  lemma ParseIntOfIntToString(n: int)
    ensures ParseInt(IntToString(n)) == n
  {
    if n < 0 {
      assert IntToString(n)[1..] == NatToString(-n);
      ParseNatOfNatToString(-n);
    } else {
      ParseNatOfNatToString(n);
    }
  }
}

=== FILE: wrappers.dfy ===
/** Optional values and results with an error, as used throughout the model. */
module Wrappers {

  /** An optional value: a TypeScript `undefined` is `None`. */
  datatype Option<+T> = None | Some(value: T) {
    function GetOr(default: T): T {
      match this
      case Some(v) => v
      case None => default
    }
  }

  /** The outcome of an operation that may throw. */
  datatype Result<+R, +E> = Success(value: R) | Failure(error: E)
}
